=== FILE: README.md ===
# Sun position and deep-sleep decision

This project models the day/night bookkeeping of an OpenDTU-based solar
monitor and the decision whether the device may enter deep sleep. Two
revisions of the subsystem are modelled side by side:

- `SunPositionClass` (src/SunPosition.cpp, module `SunPosition`). It caches
  today's nautical sunrise and sunset and a day flag, and refreshes that
  cache when it is invalid or older than the 60 s update interval. It
  suspends the device when deep sleep is configured, the cached period is
  night, and the uptime has passed the cold-boot deadline. Only the very
  first power-on arms that deadline (two minutes).
- `SunsetClass` (src/SunsetClass.cpp, module `SunsetClass`), the older
  revision. It recomputes the official sunrise and sunset when the day of
  the month changes. It recomputes the day flag, with configurable
  offsets, when the minute changes. It fails open to "day" on a clock loss.
  Once deep sleep is configured, it suspends on every tick that has a valid
  clock reading and the feature enabled.

Each `loop()` is a pure function from a state record and the tick's inputs
to the next state and a `Command` (`Continue` or `Suspend(wakeMicros)`).
Suspension is returned to a supervisor and is never a blocking call. The
inputs the firmware takes from its environment are parameters:

- the `millis()` readings;
- the local clock reading (`None` when the clock is not synchronised);
- the UTC offset;
- the configuration;
- the sunrise/sunset calculator, a function from a query (position,
  whole-hour offset, date, horizon) to two fractional minute values.

Supporting modules:

- `UInt32`: 32-bit unsigned wrap-around.
- `LocalClock`: `struct tm` fields and minute-of-day arithmetic.
- `SunCalc`: the calculator boundary. It also holds C's truncating
  float-to-int cast and truncating integer division.
- `DeepSleep`: the command and the wake-timer microseconds.
- `SunPositionHeader`: the fields and defaults that include/SunPosition.h
  declares.

The header belongs to a newer revision than src/SunPosition.cpp:

- it declares `init(Scheduler&)`, where the .cpp has `init()`;
- it has no `_lastUpdate` and no `_isDayPeriod`;
- it adds `_doRecalc`, `_lastSunPositionCalculatedYMD`, `isSunsetAvailable`,
  `setDoRecalc`, `checkRecalcDayChanged` and `getSunTime`.

So the header is modelled on its own: its declared state, its defaults and
its two timing constants. `SunPosition.Fresh` takes the header's defaults
for the fields the two share. The day flag and the last-update stamp are
parameters, because the header does not declare them.

The two revisions differ in policy:

- SunPosition.cpp fails closed to night. A refresh without a clock reading
  sets the period to night, so a woken device with deep sleep configured
  goes back to sleep at once (`SunPosition.ClockLossFailsClosed`).
- SunsetClass.cpp fails open to day (`SunsetClass.ClockLossFailsOpen`).
- SunPosition.cpp computes its day flag at refresh time and caches it. It
  refreshes on a 60 s timer, not when the date changes.
- The horizon is fixed: nautical in SunPosition.cpp, official in
  SunsetClass.cpp.

Both `Loop`s model the code as written, including the two suspected
defects listed under Findings: the wake-timer product is evaluated in
32 bits, and SunPosition.cpp compares minutes unsigned. The corrected
definitions, `DeepSleep.WakeMicros` and `SunPosition.UpdateSunDataSigned`,
are stated beside them with the intended properties.

## Model

| member | source | states |
|---|---|---|
| `UInt32.Wrap` | src/SunPosition.cpp:75-77 | the C conversion to unsigned keeps values in [0, 2^32) and adds 2^32 to a negative value down to -2^32 |
| `UInt32.Add` | src/SunPosition.cpp:24 | the 32-bit sum equals the true sum below 2^32 and is reduced by 2^32 above; it is smaller than an operand exactly when it wrapped |
| `UInt32.Sub` | src/SunPosition.cpp:32 | the 32-bit difference of two counter readings equals the true difference, or the difference plus 2^32 when the later reading wrapped |
| `UInt32.ElapsedAcrossWrap` | src/SunPosition.cpp:32 | `millis() - _lastUpdate` recovers the true elapsed time across a wrap of the millisecond counter |
| `LocalClock.MinutesPastMidnight` | src/SunsetClass.cpp:67 | `hour * 60 + min` lies in [0, 1440) for a valid reading, and is negative only for a negative hour |
| `LocalClock.MinuteOfDay` | src/SunPosition.cpp:75 | the minute of day of a synchronised clock reading lies in [0, 1440) |
| `LocalClock.CalendarDate` | src/SunPosition.cpp:72 | the calculator date is the reading's year plus 1900, its month plus 1 (so 1..12 for a valid reading) and its day of the month, as also at src/SunsetClass.cpp:58 |
| `LocalClock.ClockFace` | src/SunPosition.cpp:89-95 | midnight plus a minute count in [0, 1440) lands on an hour in [0, 24) and a minute in [0, 60) that give back the count |
| `LocalClock.FaceOfMinutes` | src/SunPosition.cpp:89-95 | the reverse round trip: the clock face of an hour and minute's minute count is that hour and minute |
| `SunCalc.TruncToInt` | src/SunPosition.cpp:73-74 | `static_cast<int>` truncates toward zero: within one minute of the value, never further from zero |
| `SunCalc.HoursOf` | src/SunPosition.cpp:60 | `offset / 3600` leaves a remainder of the offset's sign smaller than an hour (C truncation, not floor) |
| `SunCalc.HoursOfTruncatesTowardZero` | src/SunPosition.cpp:60 | UTC-4:30 yields -4 whole hours, where floor division would give -5 |
| `DeepSleep.WakeMicros` | src/SunPosition.cpp:38 | the intended wake-timer argument is exactly the configured seconds in microseconds and fits the 64-bit timer API |
| `DeepSleep.WakeMicrosAsWritten` | src/SunPosition.cpp:38 | the 32-bit product matches the exact one whenever it does not overflow |
| `DeepSleep.AsWrittenExactUpTo` | src/SunsetClass.cpp:76 | the 32-bit product is exact for sleep durations up to 4294 s |
| `DeepSleep.WakeMicrosAsWrittenWraps` | src/SunsetClass.cpp:76 | a 4295 s sleep arms the timer for 32704 us under 32-bit evaluation |
| `SunPositionHeader.Defaults` | include/SunPosition.h:31-38 | a new instance holds no valid data and has a recalculation requested, with zero cached minutes and a zero boot deadline |
| `SunPositionHeader.DefaultsDescribeNoData` | include/SunPosition.h:31-38 | initially no valid info, zero sunrise/sunset minutes, zero computed date, availability and recalculation request set |
| `SunPosition.Fresh` | include/SunPosition.h:32-36 | a constructed instance starts invalid, with zero cached minutes and a zero boot deadline |
| `SunPosition.Init` | src/SunPosition.cpp:20-28 | the boot counter always advances; only at count 0 is the deadline set to two minutes past `now`, and nothing else changes |
| `SunPosition.UpdateDue` | src/SunPosition.cpp:32 | the gate is open when the cache is invalid, and otherwise exactly when more than 60000 ms passed since the last update, counting across a counter wrap |
| `SunPosition.Query` | src/SunPosition.cpp:59-74 | the calculation uses the configured position, the UTC offset truncated toward zero to whole hours, the reading's `CalendarDate` (year + 1900, month + 1, day of month), and the nautical horizon |
| `SunPosition.UpdateSunData` | src/SunPosition.cpp:57-79 | clock loss clears the cache to invalid night with zero minutes; otherwise the cache is valid, holds the truncated nautical times, and the day flag is the code's unsigned comparison, which is sunrise <= minute of day < sunset whenever both times are non-negative |
| `SunPosition.UpdateSunDataSigned` | src/SunPosition.cpp:75-77 | the corrected refresh: the period is day iff sunrise <= minute of day < sunset for every sunrise and sunset; it differs from the code only in the day flag, and only when a time is negative |
| `SunPosition.SunTimesInDayRange` | src/SunPosition.cpp:73-74 | the cached minutes lie in [0, 1440) when the calculator's results do; a negative result gives a non-positive minute |
| `SunPosition.DayPeriodAsWritten` | src/SunPosition.cpp:75-77 | a day answer implies sunrise below sunset as unsigned values; the unsigned comparison agrees with the half-open test when all operands are non-negative |
| `SunPosition.NegativeSunriseReadsAsNight` | src/SunPosition.cpp:75-77 | a sunrise truncated to -5 makes noon read as night under the unsigned comparison, although noon lies in [-5, 1200) |
| `SunPosition.Loop` | src/SunPosition.cpp:30-45 | the cache is refreshed and stamped exactly when the gate opens and is untouched otherwise; the deadline never changes; the tick suspends iff deep sleep is configured, the period is night and the uptime is past the deadline; the wake argument is the 32-bit product, exact up to 4294 s |
| `SunPosition.IsDayPeriod` | src/SunPosition.cpp:47-50 | returns the cached flag; on a consistent cache a day answer implies valid data and, for non-negative times, sunrise before sunset |
| `SunPosition.IsValidInfo` | src/SunPosition.cpp:52-55 | returns the cached flag; on a consistent cache an invalid answer means zero sun times and night |
| `SunPosition.SunriseTime` | src/SunPosition.cpp:99-115 | returns exactly the validity flag and today's midnight plus the cached sunrise, leaving the cache unchanged |
| `SunPosition.SunsetTime` | src/SunPosition.cpp:81-97 | returns exactly the validity flag and today's midnight plus the cached sunset, leaving the cache unchanged |
| `SunPosition.SunsetAtEighteenHundred` | src/SunPosition.cpp:81-97 | a cached sunset of 1080 minutes reads as 18:00 on the current date with the cache's validity flag |
| `SunPosition.DayPeriodBetweenSunTimes` | src/SunPosition.cpp:47-55 | after a refresh from a reading, both accessors report valid data, and `isDayPeriod` holds iff the reading lies between the reported sunrise and sunset in the unsigned order, which is the plain order for non-negative times |
| `SunPosition.Run` | src/SunPosition.cpp:30-45 | over any sequence of ticks the boot deadline is unchanged, and a run only ends in suspension at night with deep sleep configured |
| `SunPosition.FreshInstanceNoGuard` | include/SunPosition.h:36 | with the declared zero deadline, a tick of a constructed instance at positive uptime suspends iff deep sleep is configured and its first refresh finds night |
| `SunPosition.FirstLoopUpdates` | include/SunPosition.h:35 | the initially invalid cache makes the first tick refresh, whatever the last-update stamp and the uptime |
| `SunPosition.GateMeasuresElapsed` | src/SunPosition.cpp:32 | with valid data the gate opens iff more than 60000 ms truly elapsed since the last update, across a counter wrap |
| `SunPosition.BootGuard` | src/SunPosition.cpp:37 | while the uptime is at or before the deadline a tick never suspends, whatever the configuration and the day state |
| `SunPosition.ColdBootGrace` | src/SunPosition.cpp:20-24 | after the first power-on's `init()`, no tick within the next two minutes suspends |
| `SunPosition.WarmBootNoGrace` | src/SunPosition.cpp:20-37 | after a later boot the deadline stays 0, so at positive uptime a tick suspends iff deep sleep is configured and it is night |
| `SunPosition.ClockLossFailsClosed` | src/SunPosition.cpp:64-69 | a refresh without a clock reading leaves the cache invalid and night, and suspends once the deadline has passed |
| `SunPosition.BootGuardOverRun` | src/SunPosition.cpp:37 | a run of ticks that all stay at or before the deadline never suspends |
| `SunPosition.LoopPreservesConsistent` | src/SunPosition.cpp:57-79 | every tick keeps the cache invariant: invalid means zero minutes and night; day means sunrise < sunset as unsigned values, the order the day test compares in |
| `SunPosition.FirstLoopConsistent` | src/SunPosition.cpp:32-35 | the first tick of a constructed instance establishes the cache invariant, whatever the initial day flag |
| `SunPosition.RunPreservesConsistent` | src/SunPosition.cpp:30-79 | the cache invariant holds after any run of ticks from a consistent cache |
| `SunsetClass.Cleared` | src/SunsetClass.cpp:32-38 | the reset assumes day time, marks day and minute as not computed (-1), zeroes the sun times, clears `initialized`, and keeps the location |
| `SunsetClass.SetLocation` | src/SunsetClass.cpp:86-107 | relocating stores the configured position and offset, resets every computed value to its default and sets `initialized` |
| `SunsetClass.SetLocationForgetsPrevious` | src/SunsetClass.cpp:91-94 | the result of relocating does not depend on any earlier state |
| `SunsetClass.Init` | src/SunsetClass.cpp:18-26 | `init()` leaves a cleared, uninitialised instance at the configured position and timezone offset, and advances the boot counter |
| `SunsetClass.Located` | src/SunsetClass.cpp:50-54 | the tick works on an initialised instance: an initialised one as it is, any other relocated to the configured position and offset with every computed value reset |
| `SunsetClass.DstAdjusted` | src/SunsetClass.cpp:61 | the offset given to the calculator is one hour more when `tm_isdst` is non-zero, and unchanged otherwise |
| `SunsetClass.Query` | src/SunsetClass.cpp:58-63 | the calculation uses the stored position, the stored offset plus one hour exactly when `tm_isdst` is non-zero, the reading's `CalendarDate` (year + 1900, month + 1, day of month), and the official horizon |
| `SunsetClass.RefreshDay` | src/SunsetClass.cpp:56-64 | afterwards the stored day equals the reading's day, and only the day and the sun times may have changed |
| `SunsetClass.DayTimeAt` | src/SunsetClass.cpp:71-72 | day time implies a non-empty shifted interval [sunrise + offset, sunset + offset) that, for a valid reading, overlaps the day; conversely an interval covering the whole day makes every valid reading day time |
| `SunsetClass.RefreshMinute` | src/SunsetClass.cpp:66-73 | afterwards the stored minute equals the reading's minute, and only the minute and the day flag may have changed |
| `SunsetClass.Loop` | src/SunsetClass.cpp:28-84 | clock loss clears and returns false; disabled clears only an initialised instance and returns true; enabled ends initialised on the reading's day and minute; the tick suspends iff the clock is valid, the feature enabled and deep sleep configured, with the 32-bit wake product, exact up to 4294 s |
| `SunsetClass.GetTimezoneOffset` | src/SunsetClass.cpp:109-112 | returns the offset of the last relocation, which a reset keeps |
| `SunsetClass.GetSunriseMinutes` | src/SunsetClass.cpp:114-117 | returns the cached sunrise, zero on a reset instance |
| `SunsetClass.GetSunsetMinutes` | src/SunsetClass.cpp:119-122 | returns the cached sunset, zero on a reset instance |
| `SunsetClass.IsDayTime` | src/SunsetClass.cpp:124-127 | returns the day flag, true on a reset instance |
| `SunsetClass.ClockLossFailsOpen` | src/SunsetClass.cpp:32-38 | a missing clock reading reads as day time with zero sun times, returns false and never suspends |
| `SunsetClass.SunTimesRecomputedOnNewDay` | src/SunsetClass.cpp:56-64 | sun times are kept on the same day of the month and recomputed from the stored position and DST-adjusted offset on a new one |
| `SunsetClass.DayFlagRecomputedOnNewMinute` | src/SunsetClass.cpp:66-73 | the day flag is kept within the same minute and otherwise equals sunrise + offset <= minute of day < sunset + offset |
| `SunsetClass.FirstTickComputesDayFlag` | src/SunsetClass.cpp:50-73 | the first enabled tick after `init()` or a clock loss computes the reading's sun times from the configured position and sets the day flag from them |
| `SunsetClass.SameMinuteOfHourKeepsDayFlag` | src/SunsetClass.cpp:66 | a reading of the already computed day with the already seen minute of the hour changes nothing, even hours later |
| `SunsetClass.DstChangeWithinDayKeepsSunTimes` | src/SunsetClass.cpp:56-61 | a daylight-saving change within an already computed day leaves the sun times as computed |
| `SunsetClass.LoopIdempotent` | src/SunsetClass.cpp:28-84 | a second tick with the same reading and configuration changes neither state, command nor return value |
| `SunsetClass.SuspendsEvenByDay` | src/SunsetClass.cpp:75-81 | with a valid clock, the feature enabled and deep sleep configured, the tick suspends whatever the day flag, with the 32-bit wake product, which is exact up to 4294 s |

## Left out

- The astronomical formula (the SunSet library) is a parameter of every operation. Its "no event" NaN result is not modelled, because neither SunPosition.cpp nor SunsetClass.cpp tests for it.
- Parsing the latitude and longitude strings (`std::stod`) is left out: the position is taken as already parsed.
- The `mktime` derivation of the timezone offset in `setLocation` is left out: the whole-hour offset is an input of `SunsetClass.Loop`, `SetLocation` and `Init`.
- `Utils::getTimezoneOffset` is not part of this model: its result in seconds is an input of `SunPosition.Loop`.
- `getLocalTime` and its 5 ms timeout are an optional clock reading. `time(NULL)` and `localtime_r` in the sun-time accessors are the reading `now`.
- Logging, `delay(1000)`, the flush, and the hardware sleep calls are not modelled. They become the `Suspend` command.
- The newer API that the header declares, whose bodies belong to a later revision, is left out: `setDoRecalc`, `checkRecalcDayChanged`, `isSunsetAvailable`, `getSunTime`, `init(Scheduler&)`, the `_doRecalc` atomic and the task registration. Only the declared fields and defaults are modelled.
- Neither revision selects the horizon from configuration, so no horizon selector is modelled.
- SunPosition.SunriseTime: gives the result as today's midnight plus the cached minutes. It does not model how `mktime` normalises minute counts outside [0, 1440) into a neighbouring date, or a DST shift on that date, because both are time-zone database behaviour.
- SunPosition.SunsetTime: same as SunriseTime.
- SunPosition.UpdateSunData: does not promise cached minutes in [0, 1440). The code truncates the calculator's results and never clamps them, so the range holds only when the calculator's results lie in it (`SunPosition.SunTimesInDayRange`).
- The `int` boot counters are modelled as unbounded natural numbers. Their overflow after 2^31 boots is not modelled.
- The sunrise/sunset offsets in SunsetClass are added as unbounded integers. Overflow of `int` is not modelled, since the values are minute counts.
- pio-scripts/auto_firmware_version.py is not modelled. It is a build-time version script.
- webapp/src/types/NtpConfig.ts is not modelled. It is a type declaration with no behaviour.

## Findings

| source | as written | input that shows it | evidently intended | confidence | as-written member | corrected member |
|---|---|---|---|---|---|---|
| src/SunPosition.cpp:38 | `Sunset_Deepsleeptime * uS_TO_S_FACTOR` is evaluated in 32 bits before widening to the 64-bit timer argument (same at src/SunsetClass.cpp:76) | `Sunset_Deepsleeptime = 4295`: the timer is armed for 32704 us instead of 4295 s | the timer gets the configured seconds in microseconds | medium, not executed; assumes the field is a 32-bit unsigned value, as its `%u` format suggests (Configuration.h is not part of this model) | `DeepSleep.WakeMicrosAsWrittenWraps` | `DeepSleep.WakeMicros` |
| src/SunPosition.cpp:75-77 | `uint minutesPastMidnight` is compared with the truncated sunrise/sunset, so a negative value is converted to a huge unsigned one | calculator sunrise -5.0 (just before local midnight), sunset 1200, clock 12:00: the period reads as night | day iff sunrise <= minute of day < sunset, signed | low, not executed; needs a calculator result before local midnight | `SunPosition.NegativeSunriseReadsAsNight` | `SunPosition.UpdateSunDataSigned` |

=== FILE: deep_sleep.dfy ===
/**
 The command a tick hands to its supervisor, and the conversion of the
 configured sleep duration into the microsecond wake-timer argument.
 */
module DeepSleep {

  import opened UInt32

  const MicrosPerSecond: nat := 1000000

  /**
   The outcome of one tick: keep running, or arm the wake timer for
   `wakeMicros` and suspend (the device then restarts from boot).
   */
  datatype Command = Continue | Suspend(wakeMicros: nat)

  /**
   The wake-timer argument in microseconds for a sleep of `seconds`,
   computed without overflow (the timer API takes a 64-bit value).
   */
  function WakeMicros(seconds: u32): (us: nat)
    ensures us / MicrosPerSecond == seconds
    ensures us % MicrosPerSecond == 0
    ensures us < 0x1_0000_0000_0000_0000
  {
    seconds * MicrosPerSecond
  }

  /**
   `Sunset_Deepsleeptime * uS_TO_S_FACTOR` as written: a 32-bit unsigned
   seconds value times an `int` constant is evaluated in 32 bits and
   wraps before it is widened to the 64-bit timer argument.
   */
  function WakeMicrosAsWritten(seconds: u32): (us: u32)
    ensures seconds * MicrosPerSecond < Modulus ==> us == WakeMicros(seconds)
  {
    Wrap(seconds * MicrosPerSecond)
  }

  /** The 32-bit product agrees with the true one only up to 4294 seconds. */
  lemma AsWrittenExactUpTo(seconds: u32)
    requires seconds <= 4294
    ensures WakeMicrosAsWritten(seconds) == WakeMicros(seconds)
  {
  }

  /** A configured sleep of 4295 s arms the timer for 32704 us instead. */
  lemma WakeMicrosAsWrittenWraps()
    ensures WakeMicrosAsWritten(4295) == 32704
    ensures WakeMicros(4295) == 4295000000
  {
  }

}

=== FILE: local_clock.dfy ===
/**
 The broken-down local time (`struct tm`) that `getLocalTime` fills in, and
 the minute-of-day arithmetic both revisions do on it.
 */
module LocalClock {

  /**
   The fields of `struct tm` the subsystem reads: `year` counts from 1900,
   `mon` from 0, `mday` from 1; `isdst` is positive, zero or negative as in C.
   */
  datatype Tm = Tm(year: int, mon: int, mday: int, hour: int, min: int, isdst: int)

  /** A calendar date with a 1-based month, as handed to the calculator. */
  datatype Date = Date(year: int, month: int, day: int)

  /** The ranges a reading from a synchronised clock keeps to. */
  predicate Valid(t: Tm) {
    0 <= t.mon < 12 && 1 <= t.mday <= 31 && 0 <= t.hour < 24 && 0 <= t.min < 60
  }

  /**
   The calendar date of a reading, converted from the `struct tm` bases:
   the year counts from 0 instead of 1900 and the month from 1 instead of 0.
   */
  function CalendarDate(t: Tm): (d: Date)
    ensures d.year - t.year == 1900 && d.month - t.mon == 1 && d.day == t.mday
    ensures Valid(t) ==> 1 <= d.month <= 12 && 1 <= d.day <= 31
  {
    Date(1900 + t.year, t.mon + 1, t.mday)
  }

  /** `hour * 60 + min`: minutes elapsed since local midnight. */
  function MinutesPastMidnight(hour: int, min: int): (m: int)
    ensures 0 <= hour < 24 && 0 <= min < 60 ==> 0 <= m < 1440
    ensures 0 <= min < 60 ==> (m < 0 <==> hour < 0)
  {
    hour * 60 + min
  }

  /** The minute of day of a clock reading. */
  function MinuteOfDay(t: Tm): (m: int)
    ensures Valid(t) ==> 0 <= m < 1440
  {
    MinutesPastMidnight(t.hour, t.min)
  }

  /** The wall-clock hour and minute a minute-of-day offset from midnight lands on. */
  function ClockFace(m: int): (hm: (int, int))
    requires 0 <= m < 1440
    ensures 0 <= hm.0 < 24 && 0 <= hm.1 < 60
    ensures MinutesPastMidnight(hm.0, hm.1) == m
  {
    (m / 60, m % 60)
  }

  /** Reading the clock face of a minute of day gives back the hour and minute it came from. */
  lemma FaceOfMinutes(hour: int, min: int)
    requires 0 <= hour < 24 && 0 <= min < 60
    ensures ClockFace(MinutesPastMidnight(hour, min)) == (hour, min)
  {
  }

}

=== FILE: sun_calc.dfy ===
/**
 The boundary to the external sunrise/sunset calculator. The astronomical
 formula itself is not modelled: a `Calculator` is any function from a query
 to two fractional minute-of-day values, and every operation that uses it
 takes it as a parameter.
 */
module SunCalc {

  import opened LocalClock

  /** The solar depression angle that defines sunrise and sunset. */
  datatype Horizon = Official | Nautical

  /** Position, whole-hour timezone offset, date and horizon of one calculation. */
  datatype SunQuery = SunQuery(latitude: real, longitude: real, tzHours: int, date: Date, horizon: Horizon)

  /** Sunrise and sunset as fractional minutes past local midnight. */
  datatype SunEvents = SunEvents(sunrise: real, sunset: real)

  type Calculator = SunQuery -> SunEvents

  /** `static_cast<int>` of a floating value: truncation toward zero. */
  function TruncToInt(x: real): (n: int)
    ensures 0.0 <= x ==> 0 <= n && n as real <= x < n as real + 1.0
    ensures x < 0.0 ==> n <= 0 && n as real - 1.0 < x <= n as real
  {
    if x >= 0.0 then x.Floor else -((-x).Floor)
  }

  /**
   Whole hours of a UTC offset in seconds, by C's `/`, which truncates
   toward zero: a half-hour zone west of Greenwich keeps the smaller hour.
   */
  function HoursOf(seconds: int): (h: int)
    ensures 0 <= seconds ==> 0 <= seconds - h * 3600 < 3600
    ensures seconds < 0 ==> -3600 < seconds - h * 3600 <= 0
  {
    if seconds >= 0 then seconds / 3600 else -((-seconds) / 3600)
  }

  /** UTC-4:30 gives -4 hours under C division, where floor division would give -5. */
  lemma HoursOfTruncatesTowardZero()
    ensures HoursOf(-16200) == -4
    ensures -16200 / 3600 == -5
  {
  }

}

=== FILE: sun_position.dfy ===
/**
 `SunPositionClass` as implemented in src/SunPosition.cpp: a cache of
 today's nautical sunrise and sunset, refreshed when it is invalid or
 older than the update interval, and a deep-sleep decision taken on every
 tick.

 Each `loop()` is a pure step from the current state and the tick's inputs
 to the next state and a `Command`. The inputs that the firmware reads from
 its environment are explicit: three `millis()` readings (the gate, the
 timestamp after an update, the suspend check), the local clock reading,
 the UTC offset, the configuration, and the sunrise/sunset calculator.
 */
module SunPosition {

  import opened Wrappers
  import opened UInt32
  import opened LocalClock
  import opened SunCalc
  import opened DeepSleep
  import H = SunPositionHeader

  /** The configuration values this revision reads. */
  datatype Config = Config(latitude: real, longitude: real, deepSleep: bool, deepSleepSeconds: u32)

  /** The instance's fields: the cached day information, the time of the last update and the cold-boot deadline. */
  datatype State = State(
    isDayPeriod: bool,
    isValidInfo: bool,
    sunriseMinutes: int,
    sunsetMinutes: int,
    lastUpdate: u32,
    bootDelay: u32)

  /**
   A newly constructed instance. The fields the header declares take its
   defaults; the day flag and the last-update stamp are not declared in
   the header, so they are parameters.
   */
  function Fresh(isDayPeriod: bool, lastUpdate: u32): (s: State)
    ensures !s.isValidInfo && s.sunriseMinutes == 0 && s.sunsetMinutes == 0 && s.bootDelay == 0
  {
    var d := H.Defaults();
    State(isDayPeriod, d.isValidInfo, d.sunriseMinutes, d.sunsetMinutes, lastUpdate, d.bootDelay)
  }

  /** The instance after `init()` together with the retained boot counter. */
  datatype Booted = Booted(state: State, bootCount: nat)

  /**
   `init()` at uptime `now`: only the first power-on (boot counter still 0)
   arms the grace deadline; every boot advances the counter.
   */
  function Init(s: State, bootCount: nat, now: u32): (b: Booted)
    ensures b.bootCount == bootCount + 1
    ensures b.state == s.(bootDelay := b.state.bootDelay)
    ensures bootCount == 0 && now + H.BootDelayMs < Modulus ==> b.state.bootDelay - now == H.BootDelayMs
    ensures bootCount != 0 ==> b.state == s
  {
    if bootCount == 0 then
      Booted(s.(bootDelay := Add(now, H.BootDelayMs)), bootCount + 1)
    else
      Booted(s, bootCount + 1)
  }

  /** The environment's readings during one `loop()` call. */
  datatype Tick = Tick(
    gateMillis: u32,
    stampMillis: u32,
    sleepMillis: u32,
    clock: Option<Tm>,
    utcOffsetSeconds: int)

  /** The state after a tick and what the supervisor must do. */
  datatype Step = Step(state: State, cmd: Command)

  /**
   The recompute gate: the cache is invalid, or more than the update
   interval has passed since the last update, counted across a wrap of the
   millisecond counter.
   */
  function UpdateDue(s: State, now: u32): (due: bool)
    ensures !s.isValidInfo ==> due
    ensures s.isValidInfo && s.lastUpdate <= now ==> (due <==> now - s.lastUpdate > H.UpdateIntervalMs)
    ensures s.isValidInfo && now < s.lastUpdate ==> (due <==> now + Modulus - s.lastUpdate > H.UpdateIntervalMs)
  {
    !s.isValidInfo || Sub(now, s.lastUpdate) > H.UpdateIntervalMs
  }

  /** The calculation this revision asks for: configured position, whole-hour offset, today's date, nautical horizon. */
  function Query(cfg: Config, utcOffsetSeconds: int, t: Tm): (q: SunQuery)
    ensures q.horizon == Nautical
    ensures q.latitude == cfg.latitude && q.longitude == cfg.longitude
    ensures 0 <= utcOffsetSeconds ==> 0 <= utcOffsetSeconds - q.tzHours * 3600 < 3600
    ensures utcOffsetSeconds < 0 ==> -3600 < utcOffsetSeconds - q.tzHours * 3600 <= 0
    ensures q.date == CalendarDate(t)
    ensures Valid(t) ==> 1 <= q.date.month <= 12 && q.date.day == t.mday
  {
    SunQuery(cfg.latitude, cfg.longitude, HoursOf(utcOffsetSeconds), CalendarDate(t), Nautical)
  }

  /** Membership of a minute of day in the half-open interval [lo, hi). */
  predicate InHalfOpen(m: int, lo: int, hi: int) {
    lo <= m < hi
  }

  /**
   The day test as written: `uint minutesPastMidnight` compared with the
   truncated sunrise and sunset, which C converts to unsigned for the
   comparison.
   */
  function DayPeriodAsWritten(minutesPastMidnight: int, sunrise: int, sunset: int): (day: bool)
    ensures day ==> Wrap(sunrise) < Wrap(sunset)
    ensures 0 <= sunrise < Modulus && 0 <= sunset < Modulus && 0 <= minutesPastMidnight < Modulus ==>
              (day <==> InHalfOpen(minutesPastMidnight, sunrise, sunset))
  {
    var m := Wrap(minutesPastMidnight);
    Wrap(sunrise) <= m && m < Wrap(sunset)
  }

  /**
   A sunrise a few minutes before local midnight (truncated to -5) becomes
   4294967291 in the unsigned comparison, so noon reads as night.
   */
  lemma NegativeSunriseReadsAsNight()
    ensures !DayPeriodAsWritten(720, -5, 1200)
    ensures InHalfOpen(720, -5, 1200)
  {
  }

  /**
   `updateSunData()`. Without a clock reading the cache is cleared and the
   period is taken to be night; otherwise the truncated sunrise and sunset
   are stored and the day flag is the unsigned comparison of
   `DayPeriodAsWritten`, which is the half-open test [sunrise, sunset)
   whenever both times are non-negative.
   */
  function UpdateSunData(s: State, cfg: Config, clock: Option<Tm>, utcOffsetSeconds: int, sun: Calculator): (u: State)
    ensures u.lastUpdate == s.lastUpdate && u.bootDelay == s.bootDelay
    ensures clock.None? ==> !u.isValidInfo && !u.isDayPeriod && u.sunriseMinutes == 0 && u.sunsetMinutes == 0
    ensures clock.Some? ==> u.isValidInfo
    ensures clock.Some? ==>
              var ev := sun(Query(cfg, utcOffsetSeconds, clock.value));
              u.sunriseMinutes == TruncToInt(ev.sunrise) && u.sunsetMinutes == TruncToInt(ev.sunset)
    ensures clock.Some? ==>
              (u.isDayPeriod <==> DayPeriodAsWritten(MinuteOfDay(clock.value), u.sunriseMinutes, u.sunsetMinutes))
    ensures clock.Some? && Valid(clock.value) && 0 <= u.sunriseMinutes < Modulus && 0 <= u.sunsetMinutes < Modulus ==>
              (u.isDayPeriod <==> u.sunriseMinutes <= MinuteOfDay(clock.value) < u.sunsetMinutes)
  {
    match clock
    case None =>
      s.(isDayPeriod := false, sunriseMinutes := 0, sunsetMinutes := 0, isValidInfo := false)
    case Some(t) =>
      var ev := sun(Query(cfg, utcOffsetSeconds, t));
      var sunrise := TruncToInt(ev.sunrise);
      var sunset := TruncToInt(ev.sunset);
      s.(sunriseMinutes := sunrise,
         sunsetMinutes := sunset,
         isDayPeriod := DayPeriodAsWritten(MinuteOfDay(t), sunrise, sunset),
         isValidInfo := true)
  }

  /**
   The refresh with the evidently intended signed test: the day flag is the
   half-open test for every sunrise and sunset, and it differs from
   `UpdateSunData` only in the day flag, and only when a time is negative.
   */
  function UpdateSunDataSigned(s: State, cfg: Config, clock: Option<Tm>, utcOffsetSeconds: int, sun: Calculator): (u: State)
    ensures clock.Some? ==> (u.isDayPeriod <==> u.sunriseMinutes <= MinuteOfDay(clock.value) < u.sunsetMinutes)
    ensures u.(isDayPeriod := false) == UpdateSunData(s, cfg, clock, utcOffsetSeconds, sun).(isDayPeriod := false)
    ensures clock.Some? && Valid(clock.value) && 0 <= u.sunriseMinutes < Modulus && 0 <= u.sunsetMinutes < Modulus ==>
              u == UpdateSunData(s, cfg, clock, utcOffsetSeconds, sun)
  {
    var w := UpdateSunData(s, cfg, clock, utcOffsetSeconds, sun);
    match clock
    case None => w
    case Some(t) => w.(isDayPeriod := InHalfOpen(MinuteOfDay(t), w.sunriseMinutes, w.sunsetMinutes))
  }

  /**
   The cached minutes lie in [0, 1440) only when the calculator's results
   do: the refresh truncates them and never clamps.
   */
  lemma SunTimesInDayRange(s: State, cfg: Config, t: Tm, utcOffsetSeconds: int, sun: Calculator)
    ensures var ev := sun(Query(cfg, utcOffsetSeconds, t));
            var u := UpdateSunData(s, cfg, Some(t), utcOffsetSeconds, sun);
            && (0.0 <= ev.sunrise < 1440.0 ==> 0 <= u.sunriseMinutes < 1440)
            && (0.0 <= ev.sunset < 1440.0 ==> 0 <= u.sunsetMinutes < 1440)
            && (ev.sunrise < 0.0 ==> u.sunriseMinutes <= 0)
  {
  }

  /**
   `loop()`: refresh the cache through the gate, stamp the refresh, then
   suspend exactly when deep sleep is configured, the period is night and
   the uptime is past the cold-boot deadline.
   */
  function Loop(s: State, cfg: Config, tick: Tick, sun: Calculator): (r: Step)
    ensures UpdateDue(s, tick.gateMillis) ==>
              r.state == UpdateSunData(s, cfg, tick.clock, tick.utcOffsetSeconds, sun).(lastUpdate := tick.stampMillis)
    ensures !UpdateDue(s, tick.gateMillis) ==> r.state == s
    ensures r.state.bootDelay == s.bootDelay
    ensures r.cmd.Suspend? <==> cfg.deepSleep && !r.state.isDayPeriod && tick.sleepMillis > s.bootDelay
    ensures r.cmd.Suspend? ==> r.cmd.wakeMicros == WakeMicrosAsWritten(cfg.deepSleepSeconds)
    ensures r.cmd.Suspend? && cfg.deepSleepSeconds <= 4294 ==> r.cmd.wakeMicros / MicrosPerSecond == cfg.deepSleepSeconds
  {
    var next :=
      if UpdateDue(s, tick.gateMillis) then
        UpdateSunData(s, cfg, tick.clock, tick.utcOffsetSeconds, sun).(lastUpdate := tick.stampMillis)
      else
        s;
    if cfg.deepSleep && !next.isDayPeriod && tick.sleepMillis > next.bootDelay then
      Step(next, Suspend(WakeMicrosAsWritten(cfg.deepSleepSeconds)))
    else
      Step(next, Continue)
  }

  /**
   `isDayPeriod()`: the cached flag. On a consistent cache a day answer
   implies valid data and, for non-negative times, sunrise before sunset.
   */
  function IsDayPeriod(s: State): (day: bool)
    ensures Consistent(s) && day ==> s.isValidInfo
    ensures Consistent(s) && day && 0 <= s.sunriseMinutes < Modulus && 0 <= s.sunsetMinutes < Modulus ==>
              s.sunriseMinutes < s.sunsetMinutes
  {
    s.isDayPeriod
  }

  /**
   `isValidInfo()`: the cached flag. On a consistent cache an invalid
   answer means zero sun times and night.
   */
  function IsValidInfo(s: State): (valid: bool)
    ensures Consistent(s) && !valid ==> s.sunriseMinutes == 0 && s.sunsetMinutes == 0 && !s.isDayPeriod
  {
    s.isValidInfo
  }

  /**
   What `sunriseTime`/`sunsetTime` produce: local midnight of `midnight`
   plus `minutes`, and the validity flag they return.
   */
  datatype SunTime = SunTime(valid: bool, midnight: Date, minutes: int)

  /** Today's midnight (taken from the current reading `now`) plus a cached minute count. */
  function CachedTime(s: State, minutes: int, now: Tm): SunTime {
    SunTime(s.isValidInfo, CalendarDate(now), minutes)
  }

  /** `sunriseTime()`: returns the validity flag, fills in today's midnight plus the cached sunrise. */
  function SunriseTime(s: State, now: Tm): (r: SunTime)
    ensures r.valid <==> IsValidInfo(s)
    ensures r.midnight == CalendarDate(now) && r.minutes == s.sunriseMinutes
  {
    CachedTime(s, s.sunriseMinutes, now)
  }

  /** `sunsetTime()`: returns the validity flag, fills in today's midnight plus the cached sunset. */
  function SunsetTime(s: State, now: Tm): (r: SunTime)
    ensures r.valid <==> IsValidInfo(s)
    ensures r.midnight == CalendarDate(now) && r.minutes == s.sunsetMinutes
  {
    CachedTime(s, s.sunsetMinutes, now)
  }

  /**
   A sunset cached as 1080 minutes reads as 18:00 of the current date, and
   the returned flag is the cache's validity.
   */
  lemma SunsetAtEighteenHundred(s: State, now: Tm)
    requires s.sunsetMinutes == 1080
    ensures ClockFace(SunsetTime(s, now).minutes) == (18, 0)
    ensures SunsetTime(s, now).midnight == CalendarDate(now)
    ensures SunsetTime(s, now).valid == s.isValidInfo
  {
  }

  /**
   After a tick that refreshed the cache from clock reading `t`, both
   accessors report valid data and the period is day exactly when `t` falls
   between the reported sunrise and sunset in the unsigned order the code
   compares in, which is the plain order when both times are non-negative.
   */
  lemma DayPeriodBetweenSunTimes(s: State, cfg: Config, tick: Tick, sun: Calculator, t: Tm)
    requires UpdateDue(s, tick.gateMillis) && tick.clock == Some(t)
    ensures var next := Loop(s, cfg, tick, sun).state;
            var rise := SunriseTime(next, t).minutes;
            var fall := SunsetTime(next, t).minutes;
            && SunriseTime(next, t).valid && SunsetTime(next, t).valid
            && (IsDayPeriod(next) <==> Wrap(rise) <= Wrap(MinuteOfDay(t)) < Wrap(fall))
            && (Valid(t) && 0 <= rise < Modulus && 0 <= fall < Modulus ==>
                  (IsDayPeriod(next) <==> rise <= MinuteOfDay(t) < fall))
  {
  }

  /** Run ticks in order until one of them suspends the device. */
  function Run(s: State, cfg: Config, ticks: seq<Tick>, sun: Calculator): (r: Step)
    ensures r.state.bootDelay == s.bootDelay
    ensures r.cmd.Suspend? ==> cfg.deepSleep && !r.state.isDayPeriod
    decreases |ticks|
  {
    if |ticks| == 0 then
      Step(s, Continue)
    else
      var first := Loop(s, cfg, ticks[0], sun);
      if first.cmd.Suspend? then first else Run(first.state, cfg, ticks[1..], sun)
  }

  /** A fresh instance never holds valid data, so its first tick always refreshes the cache. */
  lemma FirstLoopUpdates(isDayPeriod: bool, lastUpdate: u32, now: u32)
    ensures UpdateDue(Fresh(isDayPeriod, lastUpdate), now)
  {
  }

  /**
   The gate sees the true time since the last update, across a wrap of the
   millisecond counter: with valid data, a refresh happens exactly when more
   than the update interval has passed.
   */
  lemma GateMeasuresElapsed(s: State, elapsed: u32)
    ensures UpdateDue(s, Add(s.lastUpdate, elapsed)) <==> !s.isValidInfo || elapsed > H.UpdateIntervalMs
  {
    ElapsedAcrossWrap(s.lastUpdate, elapsed);
  }

  /** Boot-delay guard: no suspension while the uptime has not passed the deadline. */
  lemma BootGuard(s: State, cfg: Config, tick: Tick, sun: Calculator)
    requires tick.sleepMillis <= s.bootDelay
    ensures Loop(s, cfg, tick, sun).cmd == Continue
  {
  }

  /**
   On the first power-on, `init()` at uptime `now` withholds suspension for
   the following two minutes, whatever the configuration and day state.
   */
  lemma ColdBootGrace(s: State, now: u32, cfg: Config, tick: Tick, sun: Calculator)
    requires now + H.BootDelayMs < Modulus
    requires tick.sleepMillis <= now + H.BootDelayMs
    ensures Loop(Init(s, 0, now).state, cfg, tick, sun).cmd == Continue
  {
  }

  /**
   On a wake from deep sleep the deadline keeps its initial 0, so once the
   uptime is positive the device suspends exactly when deep sleep is
   configured and the period is night.
   */
  lemma WarmBootNoGrace(s: State, bootCount: nat, now: u32, cfg: Config, tick: Tick, sun: Calculator)
    requires s.bootDelay == H.Defaults().bootDelay && bootCount > 0 && tick.sleepMillis > 0
    ensures var r := Loop(Init(s, bootCount, now).state, cfg, tick, sun);
            r.cmd.Suspend? <==> cfg.deepSleep && !r.state.isDayPeriod
  {
  }

  /**
   The header's zero deadline: before any cold-boot arming, a tick of a
   constructed instance at positive uptime suspends exactly when deep sleep
   is configured and its first refresh finds night.
   */
  lemma FreshInstanceNoGuard(isDayPeriod: bool, lastUpdate: u32, cfg: Config, tick: Tick, sun: Calculator)
    requires tick.sleepMillis > 0
    ensures var r := Loop(Fresh(isDayPeriod, lastUpdate), cfg, tick, sun);
            r.cmd.Suspend? <==> cfg.deepSleep && !r.state.isDayPeriod
  {
  }

  /**
   This revision fails closed: when a refresh finds no clock reading, the
   period is taken as night, so a configured deep sleep is entered once the
   boot deadline has passed.
   */
  lemma ClockLossFailsClosed(s: State, cfg: Config, tick: Tick, sun: Calculator)
    requires UpdateDue(s, tick.gateMillis) && tick.clock.None?
    requires cfg.deepSleep && tick.sleepMillis > s.bootDelay
    ensures var r := Loop(s, cfg, tick, sun);
            r.cmd.Suspend? && !IsDayPeriod(r.state) && !IsValidInfo(r.state)
  {
  }

  /** The boot-delay guard holds over any run of ticks that stay before the deadline. */
  lemma {:induction false} BootGuardOverRun(s: State, cfg: Config, ticks: seq<Tick>, sun: Calculator)
    requires forall i :: 0 <= i < |ticks| ==> ticks[i].sleepMillis <= s.bootDelay
    ensures Run(s, cfg, ticks, sun).cmd == Continue
    decreases |ticks|
  {
    if |ticks| > 0 {
      var first := Loop(s, cfg, ticks[0], sun);
      BootGuard(s, cfg, ticks[0], sun);
      BootGuardOverRun(first.state, cfg, ticks[1..], sun);
    }
  }

  /**
   The cache invariant: invalid data is all zeros and night, and a day
   period implies sunrise before sunset in the unsigned order the day test
   compares in.
   */
  predicate Consistent(s: State) {
    && (!s.isValidInfo ==> s.sunriseMinutes == 0 && s.sunsetMinutes == 0 && !s.isDayPeriod)
    && (s.isDayPeriod ==> Wrap(s.sunriseMinutes) < Wrap(s.sunsetMinutes))
  }

  /** Every tick keeps the cache consistent. */
  lemma LoopPreservesConsistent(s: State, cfg: Config, tick: Tick, sun: Calculator)
    requires Consistent(s)
    ensures Consistent(Loop(s, cfg, tick, sun).state)
  {
  }

  /** Whatever the uninitialised day flag, the first tick of a fresh instance makes the cache consistent. */
  lemma FirstLoopConsistent(isDayPeriod: bool, lastUpdate: u32, cfg: Config, tick: Tick, sun: Calculator)
    ensures Consistent(Loop(Fresh(isDayPeriod, lastUpdate), cfg, tick, sun).state)
  {
  }

  /** A run of ticks from a consistent cache ends in a consistent cache. */
  lemma {:induction false} RunPreservesConsistent(s: State, cfg: Config, ticks: seq<Tick>, sun: Calculator)
    requires Consistent(s)
    ensures Consistent(Run(s, cfg, ticks, sun).state)
    decreases |ticks|
  {
    if |ticks| > 0 {
      var first := Loop(s, cfg, ticks[0], sun);
      LoopPreservesConsistent(s, cfg, ticks[0], sun);
      if !first.cmd.Suspend? {
        RunPreservesConsistent(first.state, cfg, ticks[1..], sun);
      }
    }
  }

}

=== FILE: sun_position_header.dfy ===
/**
 The state and timing constants that include/SunPosition.h declares for
 `SunPositionClass`. The header belongs to a newer revision than
 src/SunPosition.cpp, modelled in module SunPosition: it declares a
 recalculation flag and a last-computed date marker whose methods belong
 to that later revision, so only the declared fields and their initial
 values are modelled.
 */
module SunPositionHeader {

  import opened UInt32

  /** `SUNPOS_UPDATE_INTERVAL`: minimum spacing of timed recomputations, in ms. */
  const UpdateIntervalMs: u32 := 60000

  /** `DEEPSLEEP_BOOTDELAY`: grace period after a cold boot before suspending, in ms. */
  const BootDelayMs: u32 := 120000

  /** The data members the header declares, with their types' ranges. */
  datatype DeclaredState = DeclaredState(
    isSunsetAvailable: bool,
    sunriseMinutes: u32,
    sunsetMinutes: u32,
    isValidInfo: bool,
    bootDelay: u32,
    doRecalc: bool,
    lastSunPositionCalculatedYMD: u32)

  /**
   The default member initialisers of the header: a new instance will
   compute on its first tick, both because it holds no valid data and
   because a recalculation is requested.
   */
  function Defaults(): (d: DeclaredState)
    ensures !d.isValidInfo && d.doRecalc
    ensures d.bootDelay == 0 && d.sunriseMinutes == 0 && d.sunsetMinutes == 0
  {
    DeclaredState(
      isSunsetAvailable := true,
      sunriseMinutes := 0,
      sunsetMinutes := 0,
      isValidInfo := false,
      bootDelay := 0,
      doRecalc := true,
      lastSunPositionCalculatedYMD := 0)
  }

  /**
   A freshly constructed instance holds no valid sun data, no cached
   minutes, no computed date, and a pending recalculation request.
   */
  lemma DefaultsDescribeNoData()
    ensures !Defaults().isValidInfo && Defaults().isSunsetAvailable && Defaults().doRecalc
    ensures Defaults().sunriseMinutes == 0 && Defaults().sunsetMinutes == 0
    ensures Defaults().lastSunPositionCalculatedYMD == 0
  {
  }

}

=== FILE: sunset_class.dfy ===
/**
 `SunsetClass` as implemented in src/SunsetClass.cpp, the older revision:
 sunrise and sunset are recomputed when the day of the month changes, the
 day flag when the minute changes. Once deep sleep is configured, the
 device suspends on every tick that has a valid clock reading and the
 feature enabled.

 The latitude and longitude are taken as already parsed from the
 configuration strings, and the whole-hour timezone offset that
 `setLocation()` derives from the C library is an input of each tick.
 */
module SunsetClass {

  import opened Wrappers
  import opened UInt32
  import opened LocalClock
  import opened SunCalc
  import opened DeepSleep

  /** The configuration values this revision reads. */
  datatype Config = Config(
    enabled: bool,
    deepSleep: bool,
    deepSleepSeconds: u32,
    sunriseOffset: int,
    sunsetOffset: int,
    latitude: real,
    longitude: real)

  /** The instance's fields; -1 in `currentDay`/`currentMinute` means "nothing computed yet". */
  datatype State = State(
    latitude: real,
    longitude: real,
    timezoneOffset: int,
    currentDay: int,
    currentMinute: int,
    isDayTime: bool,
    sunriseMinutes: int,
    sunsetMinutes: int,
    initialized: bool)

  /**
   The reset done on a clock loss and on disabling the feature: day time
   assumed, nothing computed, no sun times, and not initialised. The
   location is kept.
   */
  function Cleared(s: State): (c: State)
    ensures c.isDayTime && !c.initialized
    ensures c.currentDay == -1 && c.currentMinute == -1
    ensures c.sunriseMinutes == 0 && c.sunsetMinutes == 0
    ensures c.latitude == s.latitude && c.longitude == s.longitude && c.timezoneOffset == s.timezoneOffset
  {
    s.(isDayTime := true, currentDay := -1, currentMinute := -1, sunriseMinutes := 0, sunsetMinutes := 0, initialized := false)
  }

  /**
   `setLocation()`: take the configured position and the given timezone
   offset, reset every computed value to its default, and mark the
   instance initialised.
   */
  function SetLocation(s: State, cfg: Config, tzHours: int): (r: State)
    ensures r.initialized && r == Cleared(r).(initialized := true)
    ensures r.latitude == cfg.latitude && r.longitude == cfg.longitude && r.timezoneOffset == tzHours
  {
    Cleared(s).(latitude := cfg.latitude, longitude := cfg.longitude, timezoneOffset := tzHours, initialized := true)
  }

  /** `setLocation()` depends on the configuration and offset only, never on what was computed before. */
  lemma SetLocationForgetsPrevious(s: State, s': State, cfg: Config, tzHours: int)
    ensures SetLocation(s, cfg, tzHours) == SetLocation(s', cfg, tzHours)
  {
  }

  /** The instance after `init()` together with the retained boot counter. */
  datatype Booted = Booted(state: State, bootCount: nat)

  /**
   `init()`: locate, then leave the instance in the cleared state, so the
   first enabled tick locates again; the boot counter is advanced.
   */
  function Init(s: State, cfg: Config, tzHours: int, bootCount: nat): (b: Booted)
    ensures b.bootCount == bootCount + 1
    ensures b.state == Cleared(b.state)
    ensures b.state.latitude == cfg.latitude && b.state.longitude == cfg.longitude
    ensures b.state.timezoneOffset == tzHours
  {
    Booted(SetLocation(s, cfg, tzHours).(isDayTime := true, initialized := false), bootCount + 1)
  }

  /**
   The state after a tick, the command for the supervisor, and the value
   `loop()` returns (false only when the clock is unavailable). Together
   with `Suspend` the call never returns; the field then holds true, the
   value of the statement that follows the sleep call.
   */
  datatype Step = Step(state: State, cmd: Command, returned: bool)

  /**
   The state `loop()` works on: an initialised instance as it is, any other
   relocated to the configured position with every computed value reset.
   */
  function Located(s: State, cfg: Config, tzHours: int): (r: State)
    ensures r.initialized
    ensures s.initialized ==> r == s
    ensures !s.initialized ==>
              r == Cleared(r).(initialized := true)
              && r.latitude == cfg.latitude && r.longitude == cfg.longitude && r.timezoneOffset == tzHours
  {
    if s.initialized then s else SetLocation(s, cfg, tzHours)
  }

  /** The timezone handed to the calculator: one hour more while daylight saving time is in effect. */
  function DstAdjusted(tzHours: int, isdst: int): (tz: int)
    ensures isdst != 0 ==> tz - tzHours == 1
    ensures isdst == 0 ==> tz == tzHours
  {
    tzHours + (if isdst != 0 then 1 else 0)
  }

  /** The calculation for reading `t`: stored position, adjusted offset, the reading's date, official horizon. */
  function Query(s: State, t: Tm): (q: SunQuery)
    ensures q.horizon == Official
    ensures q.latitude == s.latitude && q.longitude == s.longitude
    ensures q.tzHours - s.timezoneOffset == (if t.isdst != 0 then 1 else 0)
    ensures q.date == CalendarDate(t)
    ensures Valid(t) ==> 1 <= q.date.month <= 12 && q.date.day == t.mday
  {
    SunQuery(s.latitude, s.longitude, DstAdjusted(s.timezoneOffset, t.isdst), CalendarDate(t), Official)
  }

  /** Recompute the sun times when the day of the month differs from the last one computed. */
  function RefreshDay(s: State, t: Tm, sun: Calculator): (r: State)
    ensures r.currentDay == t.mday
    ensures r.(sunriseMinutes := s.sunriseMinutes, sunsetMinutes := s.sunsetMinutes, currentDay := s.currentDay) == s
  {
    if s.currentDay != t.mday then
      var ev := sun(Query(s, t));
      s.(currentDay := t.mday, sunriseMinutes := TruncToInt(ev.sunrise), sunsetMinutes := TruncToInt(ev.sunset))
    else
      s
  }

  /**
   Day time: the reading's minute of day lies in [sunrise + offset,
   sunset + offset), so the shifted interval is non-empty and, for a valid
   reading, overlaps the day; an interval that covers the whole day makes
   every valid reading day time.
   */
  function DayTimeAt(s: State, cfg: Config, t: Tm): (day: bool)
    ensures day ==> s.sunriseMinutes + cfg.sunriseOffset < s.sunsetMinutes + cfg.sunsetOffset
    ensures day && Valid(t) ==> s.sunriseMinutes + cfg.sunriseOffset < 1440 && 0 < s.sunsetMinutes + cfg.sunsetOffset
    ensures Valid(t) && s.sunriseMinutes + cfg.sunriseOffset <= 0 && 1440 <= s.sunsetMinutes + cfg.sunsetOffset ==> day
  {
    s.sunriseMinutes + cfg.sunriseOffset <= MinuteOfDay(t) < s.sunsetMinutes + cfg.sunsetOffset
  }

  /** Recompute the day flag when the minute differs from the last one seen. */
  function RefreshMinute(s: State, cfg: Config, t: Tm): (r: State)
    ensures r.currentMinute == t.min
    ensures r.(isDayTime := s.isDayTime, currentMinute := s.currentMinute) == s
  {
    if s.currentMinute != t.min then
      s.(currentMinute := t.min, isDayTime := DayTimeAt(s, cfg, t))
    else
      s
  }

  /**
   `loop()`. Without a clock reading the instance is cleared (day time
   assumed) and false is returned. With the feature disabled an
   initialised instance is cleared and an uninitialised one left alone.
   Otherwise the instance is located, the sun times and the day flag are
   refreshed, and the device suspends whenever deep sleep is configured.
   */
  function Loop(s: State, cfg: Config, clock: Option<Tm>, tzHours: int, sun: Calculator): (r: Step)
    ensures clock.None? ==> r == Step(Cleared(s), Continue, false)
    ensures clock.Some? && !cfg.enabled ==>
              r.returned && r.cmd == Continue && r.state == (if s.initialized then Cleared(s) else s)
    ensures clock.Some? && cfg.enabled ==>
              r.returned && r.state.initialized
              && r.state.currentDay == clock.value.mday && r.state.currentMinute == clock.value.min
    ensures r.cmd.Suspend? <==> clock.Some? && cfg.enabled && cfg.deepSleep
    ensures r.cmd.Suspend? ==> r.cmd.wakeMicros == WakeMicrosAsWritten(cfg.deepSleepSeconds)
    ensures r.cmd.Suspend? && cfg.deepSleepSeconds <= 4294 ==> r.cmd.wakeMicros / MicrosPerSecond == cfg.deepSleepSeconds
  {
    match clock
    case None =>
      Step(Cleared(s), Continue, false)
    case Some(t) =>
      if !cfg.enabled then
        Step(if s.initialized then Cleared(s) else s, Continue, true)
      else
        var next := RefreshMinute(RefreshDay(Located(s, cfg, tzHours), t, sun), cfg, t);
        Step(next, if cfg.deepSleep then Suspend(WakeMicrosAsWritten(cfg.deepSleepSeconds)) else Continue, true)
  }

  /** `getTimezoneOffset()`: the offset stored by the last relocation, which a reset keeps. */
  function GetTimezoneOffset(s: State): (tz: int)
    ensures tz == Cleared(s).timezoneOffset
  {
    s.timezoneOffset
  }

  /** `getSunriseMinutes()`: zero on a reset instance. */
  function GetSunriseMinutes(s: State): (m: int)
    ensures s == Cleared(s) ==> m == 0
  {
    s.sunriseMinutes
  }

  /** `getSunsetMinutes()`: zero on a reset instance. */
  function GetSunsetMinutes(s: State): (m: int)
    ensures s == Cleared(s) ==> m == 0
  {
    s.sunsetMinutes
  }

  /** `isDayTime()`: a reset instance reports day time (fail-open). */
  function IsDayTime(s: State): (day: bool)
    ensures s == Cleared(s) ==> day
  {
    s.isDayTime
  }

  /** This revision fails open: a missing clock reading always reads as day time. */
  lemma ClockLossFailsOpen(s: State, cfg: Config, tzHours: int, sun: Calculator)
    ensures var r := Loop(s, cfg, None, tzHours, sun);
            IsDayTime(r.state) && !r.returned && r.cmd == Continue
            && GetSunriseMinutes(r.state) == 0 && GetSunsetMinutes(r.state) == 0
  {
  }

  /**
   Sun times are recomputed exactly on a new day of the month, from the
   stored position and the daylight-saving adjusted offset; on the same day
   they are kept.
   */
  lemma SunTimesRecomputedOnNewDay(s: State, cfg: Config, t: Tm, tzHours: int, sun: Calculator)
    requires cfg.enabled
    ensures var located := Located(s, cfg, tzHours);
            var r := Loop(s, cfg, Some(t), tzHours, sun).state;
            && (located.currentDay == t.mday ==>
                  r.sunriseMinutes == located.sunriseMinutes && r.sunsetMinutes == located.sunsetMinutes)
            && (located.currentDay != t.mday ==>
                  var ev := sun(SunQuery(located.latitude, located.longitude,
                                         DstAdjusted(located.timezoneOffset, t.isdst), CalendarDate(t), Official));
                  r.sunriseMinutes == TruncToInt(ev.sunrise) && r.sunsetMinutes == TruncToInt(ev.sunset))
  {
  }

  /**
   The day flag is recomputed exactly on a new minute, against the sun
   times of the reading's day; within the same minute it is kept.
   */
  lemma DayFlagRecomputedOnNewMinute(s: State, cfg: Config, t: Tm, tzHours: int, sun: Calculator)
    requires cfg.enabled
    ensures var located := Located(s, cfg, tzHours);
            var r := Loop(s, cfg, Some(t), tzHours, sun).state;
            && (located.currentMinute == t.min ==> r.isDayTime == located.isDayTime)
            && (located.currentMinute != t.min ==>
                  (r.isDayTime <==> r.sunriseMinutes + cfg.sunriseOffset <= MinuteOfDay(t) < r.sunsetMinutes + cfg.sunsetOffset))
  {
  }

  /**
   The first enabled tick after `init()` or after a clock loss computes the
   sun times for the reading's date and the day flag from them.
   */
  lemma FirstTickComputesDayFlag(s: State, cfg: Config, t: Tm, tzHours: int, sun: Calculator)
    requires !s.initialized && cfg.enabled && Valid(t)
    ensures var r := Loop(s, cfg, Some(t), tzHours, sun).state;
            var ev := sun(SunQuery(cfg.latitude, cfg.longitude, DstAdjusted(tzHours, t.isdst), CalendarDate(t), Official));
            && r.sunriseMinutes == TruncToInt(ev.sunrise) && r.sunsetMinutes == TruncToInt(ev.sunset)
            && (IsDayTime(r) <==> r.sunriseMinutes + cfg.sunriseOffset <= MinuteOfDay(t) < r.sunsetMinutes + cfg.sunsetOffset)
  {
  }

  /**
   Only the minute of the hour is compared: two readings of the same day
   that share it keep the earlier day flag, even hours apart.
   */
  lemma SameMinuteOfHourKeepsDayFlag(s: State, cfg: Config, t: Tm, tzHours: int, sun: Calculator)
    requires s.initialized && cfg.enabled && s.currentDay == t.mday && s.currentMinute == t.min
    ensures Loop(s, cfg, Some(t), tzHours, sun).state == s
  {
  }

  /**
   A change of daylight saving time within a day is not applied: once the
   day's sun times are computed, a reading with a different `isdst` keeps
   them.
   */
  lemma DstChangeWithinDayKeepsSunTimes(s: State, cfg: Config, t: Tm, tzHours: int, sun: Calculator)
    requires s.initialized && cfg.enabled && s.currentDay == t.mday
    ensures var r := Loop(s, cfg, Some(t), tzHours, sun).state;
            r.sunriseMinutes == s.sunriseMinutes && r.sunsetMinutes == s.sunsetMinutes
  {
  }

  /**
   Repeating a tick with the same clock reading and configuration changes
   nothing further, on every path.
   */
  lemma LoopIdempotent(s: State, cfg: Config, clock: Option<Tm>, tzHours: int, sun: Calculator)
    ensures var once := Loop(s, cfg, clock, tzHours, sun);
            var twice := Loop(once.state, cfg, clock, tzHours, sun);
            twice.state == once.state && twice.cmd == once.cmd && twice.returned == once.returned
  {
  }

  /** Once deep sleep is configured, a tick with a clock reading suspends even during day time. */
  lemma SuspendsEvenByDay(s: State, cfg: Config, t: Tm, tzHours: int, sun: Calculator)
    requires cfg.enabled && cfg.deepSleep
    ensures var r := Loop(s, cfg, Some(t), tzHours, sun);
            && r.cmd.Suspend? && r.cmd.wakeMicros == WakeMicrosAsWritten(cfg.deepSleepSeconds)
            && (cfg.deepSleepSeconds <= 4294 ==> r.cmd.wakeMicros == WakeMicros(cfg.deepSleepSeconds))
  {
  }

}

=== FILE: uint32.dfy ===
/**
 Unsigned 32-bit arithmetic as the firmware performs it on `uint32_t` and on
 the `unsigned long` returned by `millis()`: every result is reduced modulo
 2^32, so a counter that runs past 2^32 - 1 starts again at 0.
 */
module UInt32 {

  const Modulus: int := 0x1_0000_0000

  type u32 = x: int | 0 <= x < Modulus

  /** The value a C conversion to `uint32_t` gives to an unbounded integer. */
  function Wrap(x: int): (r: u32)
    ensures 0 <= x < Modulus ==> r == x
    ensures Modulus <= x < 2 * Modulus ==> r == x - Modulus
    ensures -Modulus <= x < 0 ==> r == x + Modulus
  {
    x % Modulus
  }

  /** `a + b` on 32-bit unsigned operands. */
  function Add(a: u32, b: u32): (r: u32)
    ensures a + b < Modulus ==> r == a + b
    ensures a + b >= Modulus ==> r == a + b - Modulus
    ensures r < a <==> a + b >= Modulus
  {
    Wrap(a + b)
  }

  /** `a - b` on 32-bit unsigned operands. */
  function Sub(a: u32, b: u32): (r: u32)
    ensures b <= a ==> r == a - b
    ensures a < b ==> r == a - b + Modulus
  {
    Wrap(a - b)
  }

  /**
   The difference of two counter readings is the time that really passed
   between them, even when the counter wrapped in between, as long as less
   than one full counter period passed.
   */
  lemma ElapsedAcrossWrap(start: u32, elapsed: u32)
    ensures Sub(Add(start, elapsed), start) == elapsed
  {
  }

}

=== FILE: wrappers.dfy ===
/** An optional value: a clock reading that may be unavailable. */
module Wrappers {

  datatype Option<+T> = None | Some(value: T)

}
